=== FILE: README.md ===
# Blofin CORS proxy — a Dafny model

The system is a small HTTP forwarding relay. Browser clients call it, and it
reissues each `/api/` request against the fixed upstream origin
`https://openapi.blofin.com`. The upstream's reply is passed back with three
changes: hop-by-hop headers are removed, permissive cross-origin (CORS)
headers are added, and failures become status codes. The source has two
variants of the server:

- `main.go` is the plain server. It registers `/health` and a catch-all `/`
  route, and wraps both in the CORS wrapper.
- `main-optimized.go` is the optimised server. It registers `/health`,
  `/metrics` and the `/api/` subtree, each wrapped. It also keeps a request
  counter that the proxy handler increments.

Both variants share one forwarding pipeline, which this project models as
total functions over strings and header multimaps:

| module | file | what it holds |
|---|---|---|
| `Ascii` | `ascii.dfy` | ASCII lowercasing of header names |
| `HopByHop` | `hop_by_hop.dfy` | the eight-name denylist, the source's list-scanning lookup and its set-based meaning |
| `Headers` | `headers.dfy` | headers as `map<string, seq<string>>`; `Add`/`Set`; the copy loop (any iteration order) proved equal to the reference copy `CopyEndToEnd` |
| `Options`, `Http` | `http.dfy` | requests, responses, status codes, the four CORS headers, preflight, error and JSON replies |
| `Forwarder` | `forwarder.dfy` | composing the target URL, the outbound request, and the mapping from outcome to status |
| `Basic` | `basic.dfy` | the plain server's routing (`main.go`) |
| `Optimized` | `optimized.dfy` | the optimised server's routing and its request counter, carried as state from one request to the next (`main-optimized.go`) |
| `Escaping` | `escaping.dfy` | what the URL parser makes of the composed address: its cut at the first `#` and `?` and its second percent-decoding of the already decoded path, and a composition that escapes `%`, `?` and `#` first |
| `Variants` | `variants.dfy` | where the two servers agree and where they differ |

Three library calls are foreign code and are not modelled: `url.Parse`,
`http.NewRequest` and `client.Do`. Each is an opaque input of type
`Collaborators`:

- whether the composed URL parses;
- whether the outbound request can be built;
- the dispatch result, which is either an error or the status and headers of `client.Do`'s final response.

The model fixes one policy where the two variants could have differed: the
`/api` prefix is kept in the upstream path. Both source files do exactly
that.

## Model

| member | source | states |
|---|---|---|
| Ascii.LowerChar | main-optimized.go:224 | an upper-case ASCII letter maps to the letter 32 code points above it, a lower-case one; every other character maps to itself |
| Ascii.ToLower | main-optimized.go:224 | lowering keeps the length, maps each character on its own, and leaves no upper-case ASCII letter |
| Ascii.ToLowerIdempotent | main-optimized.go:224-226 | lowering a lowered name changes nothing |
| HopByHop.IsHopByHopHeader | main-optimized.go:212-231 | the source's lookup (lower the name, then scan the eight listed names lowered one by one) answers true exactly when the lowered name is in the denylist set |
| HopByHop.DenylistIsListLowered | main-optimized.go:213-222 | the denylist set holds exactly the lowered forms of the eight listed names |
| HopByHop.HopByHopIffListed | main.go:146-165 | a name is hop-by-hop if and only if it equals one of Connection, Keep-Alive, Proxy-Authenticate, Proxy-Authorization, Te, Trailers, Transfer-Encoding or Upgrade, ignoring case |
| HopByHop.HopByHopIgnoresCase | main.go:158-160 | lowering a name first never changes whether it is hop-by-hop |
| HopByHop.TeInAnyCase | main-optimized.go:218 | `TE`, `te`, `Te` and `tE` are all hop-by-hop |
| HopByHop.EndToEndNamesPass | main-optimized.go:213-222 | authentication and content headers are not hop-by-hop; neither are the singular `Trailer` and `Proxy-Connection`, which the list does not name |
| Headers.Add | main-optimized.go:175 | adding appends one value after the name's existing values and changes no other name |
| Headers.Del | main.go:83 | deleting a name removes it with all its values and changes no other name |
| Headers.Set | main-optimized.go:74 | setting replaces the name's values with the single value and changes no other name |
| Headers.AddValues | main-optimized.go:174-176 | the inner loop appends all values in order under the name and changes no other name |
| Headers.CopyHeaders | main-optimized.go:169-177 | the copy loop, for any map iteration order, gives each name the destination's values followed by the source's values (none for a hop-by-hop name); it creates exactly the end-to-end names that carry a value; the result equals the reference copy |
| Headers.CopySkipsHopByHop | main-optimized.go:192-195 | a hop-by-hop source name adds nothing: the destination keeps exactly its own values and key presence |
| Headers.CopyAppendsEndToEnd | main.go:103-105 | an end-to-end name ends with the destination's values followed by all source values, in the same order and with the same multiplicity |
| Headers.FilteredHasNoHopByHop | main.go:98-106 | a copy into an empty header contains no hop-by-hop name in any spelling |
| Headers.FilterIdempotent | main.go:98-106 | filtering an already filtered header changes nothing |
| Headers.FilterKeepsCleanHeader | main-optimized.go:168-177 | a header with no hop-by-hop name and no empty value list comes through unchanged |
| Http.CorsHeaders | main-optimized.go:74-77 | the wrapper's headers are exactly the four Access-Control names, one value each, with the fixed origin, method list, header list and max-age `86400` |
| Http.Error | main.go:83 | an error reply drops Content-Length, sets Content-Type to `text/plain; charset=utf-8` and X-Content-Type-Options to `nosniff`, leaves every other writer header alone, and has the message plus a line break as its body |
| Http.NotFound | main.go:64 | an unknown path gets 404 with the body `404 page not found` and a line break; names other than the three content headers keep the writer's values |
| Http.ErrorKeepsCors | main.go:83 | an error reply keeps the CORS headers already on the writer |
| HopByHop.LongNamesAreEndToEnd | main-optimized.go:213-222 | a name longer than `Proxy-Authorization` is never hop-by-hop, whatever its case |
| Http.CorsNamesEndToEnd | main-optimized.go:74-77 | none of the four Access-Control names the wrapper sets is hop-by-hop |
| Http.ContentNamesEndToEnd | main.go:46 | Content-Type and X-Content-Type-Options, the content headers the server writes, are not hop-by-hop |
| Http.CorsHeadersEndToEnd | main-optimized.go:74-77 | the wrapper's headers hold no hop-by-hop name |
| Http.WritesAddNoHopByHop | main.go:46 | neither a JSON reply nor an error reply adds a hop-by-hop name to a writer that has none |
| Headers.CopyKeepsNoHopByHop | main-optimized.go:191-199 | copying any upstream header onto a writer without hop-by-hop names leaves it without them |
| Http.PreflightIsCaseSensitive | main.go:35 | a request is a preflight when its method is `OPTIONS`; `options` and `Options` are not |
| Http.Json | main.go:46-47 | a JSON reply has status 200, the given body and Content-Type `application/json`, and every other writer header is kept |
| Http.Preflight | main-optimized.go:79-83 | a preflight is answered 200, with no body and the CORS headers |
| Http.JsonKeepsCors | main.go:46 | setting Content-Type on a JSON reply keeps the CORS headers |
| Http.CopyKeepsCors | main.go:122-130 | appending upstream headers onto the writer keeps each CORS value first under its name |
| Forwarder.BuildTarget | main-optimized.go:149-156 | the address handed to `url.Parse` is the origin followed by the decoded inbound path, and the raw query is copied as it is |
| Forwarder.Outbound | main.go:91-106 | the outbound request keeps the inbound method, goes to the composed target, has no hop-by-hop header and carries every other inbound header's values unchanged |
| Forwarder.UpstreamPath | main.go:80-81 | stripping the origin inverts composition: it is defined exactly on addresses that start with the origin and gives back the rest |
| Forwarder.TargetRoundTrip | main-optimized.go:148-156 | the path part of the address handed to `url.Parse` is the decoded inbound path unchanged, and the raw query is copied character for character |
| Forwarder.TargetKeepsApiPrefix | main.go:77-81 | the address handed to `url.Parse` still has the `/api/` prefix after the origin |
| Forwarder.TargetInjective | main.go:80-88 | two requests get the same target if and only if they have the same path and raw query |
| Forwarder.Proxy | main-optimized.go:149-202 | parse failure gives 400, construction failure 500 and dispatch error 502; otherwise the status of `client.Do`'s final response is relayed; a request goes upstream exactly when parsing and construction succeed |
| Forwarder.OutboundFiltersHeaders | main.go:91-106 | the outbound request uses the inbound method, path and query; it has no hop-by-hop header and carries every other inbound header's values unchanged |
| Forwarder.RelayAppendsAfterWriterHeaders | main-optimized.go:191-202 | a relayed reply keeps the upstream status; upstream end-to-end values follow the writer's values; upstream hop-by-hop headers add nothing |
| Forwarder.ErrorRepliesAreGeneric | main-optimized.go:180-187 | error replies carry one of three fixed messages (each followed by a line break), never the failure's detail; every name other than the three content headers keeps the writer's values, so the CORS headers survive |
| Forwarder.ReplyKeepsCors | main-optimized.go:149-199 | whatever the outcome, the proxy's reply keeps the CORS headers the writer held |
| Forwarder.ReplyHasNoHopByHop | main-optimized.go:191-199 | when the writer holds no hop-by-hop name, the proxy's reply holds none either, whatever the upstream sent |
| Forwarder.ExactlyOneOutcome | main.go:81-133 | every proxied request ends in exactly one of: 400, 500, 502, or the relayed upstream status |
| Basic.RouteOf | main.go:45-51 | only the exact `/health` leaves the catch-all; no `/api/` path is taken by `/health` |
| Basic.CatchAllHandler | main.go:51-65 | exact `/` gets the 200 descriptor; an `/api/` path gets the proxy's reply and sends what the proxy sends; anything else is 404 and sends nothing |
| Basic.Serve | main.go:45-65 | the plain server sends a request upstream only when it is not a preflight and its path starts with `/api/` |
| Basic.CorsOnEveryResponse | main.go:26-42 | every reply of the wrapped handlers leads with the four CORS headers, including errors and 404s |
| Basic.PreflightOnAnyPath | main.go:34-38 | `OPTIONS` on any path that reaches the wrapped handlers gets 200 with only the CORS headers and never reaches the proxy or the 404 branch |
| Basic.NoHopByHopInAnyReply | main.go:122-130 | the handler's header map of every reply of the plain server holds no hop-by-hop name: upstream hop-by-hop headers are dropped and the server's own headers are end-to-end |
| Basic.CatchAllDecisionOrder | main.go:51-65 | the catch-all decides in this order: exact `/` gets the descriptor, an `/api/` prefix is proxied, anything else is 404 |
| Basic.ForwardedIffProxyRoute | main.go:57-62 | a request goes upstream if and only if it is a non-preflight `/api/` request whose URL parses and whose request builds; what is sent is the filtered outbound request |
| Basic.HealthAnswers | main.go:45-48 | `/health` answers 200 with JSON and sends nothing upstream |
| Optimized.RouteOf | main-optimized.go:90-119 | the three patterns do not overlap: `/health` and `/metrics` are matched exactly and every `/api/` path goes to the proxy route |
| Optimized.Next | main-optimized.go:142-146 | one request raises the counter by at most one, and by one exactly when it reaches the proxy handler |
| Optimized.ProxyHandler | main-optimized.go:142-146 | the proxy handler raises the counter by exactly one before anything else |
| Optimized.Serve | main-optimized.go:89-119 | one request raises the counter by one exactly when it reaches the proxy handler, and only such a request goes upstream |
| Optimized.Run | main-optimized.go:144-146 | serving a sequence of requests never lowers the counter |
| Optimized.RunServesInOrder | main-optimized.go:142-146 | running one more request leaves exactly the state that serving it leaves, in the state the earlier requests produced |
| Optimized.CounterCountsProxiedCalls | main-optimized.go:143-146 | after a sequence of requests, the counter has grown by exactly the number that reached the proxy handler, failed ones included |
| Optimized.CounterNeverDecreases | main-optimized.go:144-145 | the counter after a prefix of a sequence is at most the counter after any longer prefix |
| Optimized.HealthReportsCount | main-optimized.go:90-98 | `/health` answers 200, reports the current count and leaves the counter unchanged |
| Optimized.MetricsReportsCount | main-optimized.go:101-116 | `/metrics` reports the current count and leaves the counter unchanged |
| Optimized.HealthCountsNeverDecrease | main-optimized.go:91-97 | across a sequence of requests, a later `/health` reply never reports a smaller count than an earlier one |
| Optimized.FailedCallsAreCounted | main-optimized.go:143-153 | a request that reaches the proxy handler is counted whether it ends in 400, 500, 502 or a relay |
| Optimized.PreflightNotCounted | main-optimized.go:79-83 | `OPTIONS` on a registered route gets 200 with CORS headers; the handler is not run, so nothing is counted or sent |
| Optimized.CorsOnRegisteredRoutes | main-optimized.go:71-87 | every reply on a registered route has the CORS headers; the router's own 404 for other paths has none of the four CORS names and counts nothing |
| Optimized.NoHopByHopInAnyReply | main-optimized.go:191-199 | the handler's header map of every reply of the optimised server holds no hop-by-hop name, the router's 404 included |
| Optimized.RegisteredRoutes | main-optimized.go:90-119 | the only registered routes are `/health`, `/metrics` and paths under `/api/` |
| Escaping.Unescape | main.go:81 | the parser's decoding never lengthens the path, makes a path containing `%` strictly shorter when it succeeds, and always rejects a path that ends in `%` |
| Escaping.UnescapePercentFree | main.go:81 | a path without `%` decodes to itself |
| Escaping.CutAt | main-optimized.go:149 | the text before the first occurrence of a character never contains it; there is a rest exactly when the character occurs, and before, the character and the rest make up the whole string |
| Escaping.ParsedPath | main-optimized.go:149 | the parser's path is never longer than the path part handed to it, and is strictly shorter when that part contains `?` or `#`, which start the query and the fragment |
| Escaping.EscapePath | main.go:80-81 | the corrected escaping never shortens a string, leaves no `?` or `#` behind, and leaves a string without `%`, `?` and `#` unchanged |
| Escaping.UnescapeEscapeChar | main.go:81 | decoding undoes the escape of any one character, whatever follows it |
| Escaping.UnescapeEscapePath | main.go:81 | decoding an escaped string gives back the string, for every string |
| Escaping.PercentFreePathSurvives | main-optimized.go:149 | a proxied path without `%` reaches the upstream unchanged exactly when it contains no `?` and no `#` |
| Escaping.LonePercentRejected | main-optimized.go:149-151 | the decoded path `/api/100%` (sent as `/api/100%25`) is rejected by the parser, and the proxy answers 400 |
| Escaping.EscapedPathDecodedTwice | main.go:80-81 | the decoded path `/api/a%20b` (sent as `/api/a%2520b`) is decoded a second time, so the parser never gives back the inbound path |
| Escaping.EncodedQueryMarkTruncates | main-optimized.go:149-156 | the decoded path `/api/a?b` (sent as `/api/a%3Fb`) is cut at the `?`, so the parser never gives back the inbound path |
| Escaping.EscapedTarget | main.go:80-81 | the corrected composition escapes `%`, `?` and `#` before parsing; it keeps the raw query and equals the source's composition for paths without those three characters |
| Escaping.EscapedTargetRoundTrip | main.go:80-81 | with `%`, `?` and `#` escaped first, the parser gives back the inbound path of every proxied request and never rejects it |
| Variants.ProxiedRequestsAgree | main-optimized.go:142-209 | for a request both servers proxy, the reply and the outbound request are the same; only the optimised server counts it |
| Variants.PreflightOffRouteDiffers | main.go:51 | `OPTIONS /docs` gets 200 from the plain server (its catch-all is wrapped) and 404 from the optimised one |
| Variants.RootPathDiffers | main.go:52-56 | `GET /` is the descriptor on the plain server and 404 on the optimised one |

## Left out

- Transport internals are not modelled: connection pooling, TLS, HTTP/2, and the buffer and idle settings. The client timeout (30 s) and the request deadline (25 s) appear only as constants in `Forwarder`, because they act on wall-clock time.
- `url.Parse`, `http.NewRequest`/`NewRequestWithContext` and `client.Do` are opaque inputs (`Collaborators`). The target is stated as the string handed to the parser, plus the raw query assigned afterwards. The pipeline does not derive the parse result from the path. The parser decodes the already decoded path a second time: a `%` in it is decoded again, and a lone `%` makes a legal request fail with 400. `Escaping` states this beside the pipeline (see "## Findings"). The parser's cut at the first `#` and then at the first `?` is modelled in `Escaping.ParsedPath`. Its rejection of control characters is not modelled, and `ParsedPath` gives no path for an address that does not continue the origin with `/`, which the parser would read as naming another host.
- A redirect that `client.Do` follows (301, 302 and 303, and 307 and 308 when there is no body) is not relayed; other 3xx answers are relayed like any status. The dispatch result stands for the final response after any redirects, or for a dispatch error when following them fails. The redirect chain itself is not modelled.
- The headers the Go server adds when it writes the reply are not modelled: `Date`, `Content-Length`, `Transfer-Encoding: chunked` and `Connection`. `Response.header` is the handler's header map, so the no-hop-by-hop lemmas speak of that map and not of the bytes on the wire.
- The outbound URL's serialisation (`targetURL.String()` with path escaping) is library code and is not modelled.
- Headers the HTTP client adds on its own (User-Agent, Accept-Encoding, Content-Length, Host) are not modelled. They are transport behaviour.
- Streaming the response body (`io.Copy`) and failures part-way through the stream are I/O. The body is the token `UpstreamBody`.
- Concurrency is not modelled: the read/write lock, and the optimised `/metrics` reading the counter without the lock. The counter is state passed from one request to the next, in order.
- Ascii.ToLower: handles ASCII letters only. Go's `strings.ToLower` also maps non-ASCII letters, but HTTP header names are ASCII tokens.
- Headers.Add: does not canonicalise header-name case the way Go's `Header.Add`/`Set` do. Names are used exactly as given. Also, map iteration order is not modelled: the copy loop is proved correct for every order, and no order across different names is claimed.
- Http.Error: models the headers `http.Error` deletes and sets as the Go releases that only drop Content-Length do. Releases that also drop other content headers (Content-Encoding, ETag, Last-Modified) are not modelled.
- Basic.Serve: routes on the decoded, uncleaned path (`URL.Path`). The router's own answers are not modelled: its 301 redirect for paths that contain `..` or `//`, and the server's answer to `OPTIONS *`, a 200 with no CORS headers. In the model those requests reach the wrapped handlers instead.
- Basic.CorsOnEveryResponse: covers the replies of the wrapped handlers only. The router's redirect and the server's `OPTIONS *` answer carry no CORS headers and are not modelled.
- Basic.PreflightOnAnyPath: covers the paths that reach the wrapped handlers. It does not cover `OPTIONS *` or the paths the router redirects.
- Optimized.Serve: routes on the decoded, uncleaned path (`URL.Path`). The router's 301 redirects are not modelled. An unclean `/api/` path such as `/api//x` or `/api/../health` is proxied and counted in the model, while the router would redirect it, run no handler and count nothing. `/api` without the trailing slash is the model's uncounted 404, while the router redirects it to `/api/`. The server's answer to `OPTIONS *` is not modelled either.
- The request counter is a `nat`. The source's `int64` would wrap only after 2^63 requests, which cannot happen in practice.
- Timestamps (RFC 3339), goroutine counts, memory and GC figures, CPU counts, logging, the `DEBUG` and `PORT` environment variables and server start-up are not modelled. They are clocks, runtime introspection, floating point or I/O.

## Findings

| source | as written | input that shows it | evidently intended | confidence | as-written member | corrected member |
|---|---|---|---|---|---|---|
| main-optimized.go:149 | the origin is joined with the already decoded `URL.Path`, and `url.Parse` decodes the result again | a client request for `/api/100%25` has the decoded path `/api/100%`; the lone `%` fails to parse and the proxy answers 400. A request for `/api/a%2520b` reaches the upstream as `/api/a b`, and one for `/api/a%3Fb` as `/api/a` | the upstream receives the inbound path unchanged; 400 only for structurally invalid input | high; not executed | Escaping.LonePercentRejected | Escaping.EscapedTargetRoundTrip |

The forwarding pipeline keeps the source's composition (`Forwarder.BuildTarget`) and treats the parse result as an input, so its rows describe the program as written. The corrected composition `Escaping.EscapedTarget` escapes `%`, `?` and `#` before parsing. It is proved to give back the inbound path of every proxied request, and it agrees with the source's composition on every path without those three characters.

=== FILE: ascii.dfy ===
/**
  ASCII case mapping, the part of `strings.ToLower` that HTTP header names
  (which are tokens of ASCII characters) ever exercise.
 */
module Ascii {

  predicate IsUpper(c: char) {
    'A' <= c <= 'Z'
  }

  /** A string with no upper-case ASCII letter in it. */
  predicate IsLowerCase(s: string) {
    forall i :: 0 <= i < |s| ==> !IsUpper(s[i])
  }

  /** The lower-case letter for an upper-case ASCII letter; every other character maps to itself. */
  function LowerChar(c: char): (r: char)
    ensures !IsUpper(r)
    ensures IsUpper(c) ==> r as int == c as int + 32 && 'a' <= r <= 'z'
    ensures !IsUpper(c) ==> r == c
  {
    if IsUpper(c) then (c as int + 32) as char else c
  }

  function ToLower(s: string): (r: string)
    ensures |r| == |s|
    ensures forall i :: 0 <= i < |s| ==> r[i] == LowerChar(s[i])
    ensures IsLowerCase(r)
  {
    seq(|s|, i requires 0 <= i < |s| => LowerChar(s[i]))
  }

  /** `t` is the lowered form of `s` as soon as it agrees with it letter by letter. */
  lemma LowersTo(s: string, t: string)
    requires |s| == |t|
    requires forall i :: 0 <= i < |s| ==> LowerChar(s[i]) == t[i]
    ensures ToLower(s) == t
  {
  }

  /** Lowering twice is lowering once. */
  lemma ToLowerIdempotent(s: string)
    ensures ToLower(ToLower(s)) == ToLower(s)
  {
  }
}

=== FILE: basic.dfy ===
/**
  The plain proxy server: a health route and a catch-all route, both behind
  the cross-origin wrapper. The catch-all answers the root descriptor, hands
  `/api/` paths to the forwarder and answers 404 otherwise.
 */
module Basic {
  import opened Options
  import opened Headers
  import opened Http
  import opened Forwarder

  /** The two registered patterns: `/health` exactly, and `/` for everything else. */
  datatype Route = HealthRoute | CatchAll

  /** Only the exact `/health` is taken from the catch-all; in particular no `/api/` path is. */
  function RouteOf(path: string): (route: Route)
    ensures route == HealthRoute <==> path == "/health"
    ensures ApiPrefix <= path ==> route == CatchAll
  {
    if path == "/health" then
      assert path[1] != ApiPrefix[1];
      HealthRoute
    else CatchAll
  }

  /** A served request: the reply, and the request sent upstream if one was. */
  datatype Served = Served(response: Response, sent: Option<OutboundRequest>)

  /** The catch-all handler, run with the cross-origin headers already on the writer. */
  function CatchAllHandler(r: Request, lib: Collaborators, w: Header): (sv: Served)
    ensures r.path == "/" ==> sv.response.body == Descriptor && sv.response.status == StatusOK && sv.sent == None
    ensures ApiPrefix <= r.path ==> sv.response == Proxy(r, lib, w).response && sv.sent == Proxy(r, lib, w).sent
    ensures r.path != "/" && !(ApiPrefix <= r.path) ==> sv.response.status == StatusNotFound && sv.sent == None
    ensures sv.sent.Some? ==> ApiPrefix <= r.path
  {
    if r.path == "/" then
      Served(Json(w, Descriptor), None)
    else if ApiPrefix <= r.path then
      var x := Proxy(r, lib, w);
      Served(x.response, x.sent)
    else
      Served(NotFound(w), None)
  }

  /** One request through the server: route, cross-origin wrapper, then the route's handler. */
  function Serve(r: Request, lib: Collaborators): (s: Served)
    ensures s.sent.Some? ==> !IsPreflight(r) && ApiPrefix <= r.path
  {
    var w := CorsHeaders();
    if IsPreflight(r) then
      Served(Preflight(), None)
    else
      match RouteOf(r.path)
      case HealthRoute => Served(Json(w, HealthReport(None)), None)
      case CatchAll => CatchAllHandler(r, lib, w)
  }

  /** Every reply of this server, errors and 404s included, leads with the four cross-origin headers. */
  lemma CorsOnEveryResponse(r: Request, lib: Collaborators)
    ensures HasCors(Serve(r, lib).response.header)
  {
    var w := CorsHeaders();
    if !IsPreflight(r) && RouteOf(r.path) == CatchAll {
      if r.path == "/" {
        JsonKeepsCors(w, Descriptor);
      } else if ApiPrefix <= r.path {
        ReplyKeepsCors(r, lib, w);
      } else {
        ErrorKeepsCors(w, "404 page not found", StatusNotFound);
      }
    }
  }

  /** `OPTIONS` on any path, registered or not, is answered 200 with the cross-origin headers and sends nothing. */
  lemma PreflightOnAnyPath(r: Request, lib: Collaborators)
    requires IsPreflight(r)
    ensures Serve(r, lib).response.status == StatusOK
    ensures Serve(r, lib).response.body == Empty
    ensures Serve(r, lib).response.header == CorsHeaders()
    ensures Serve(r, lib).sent == None
  {
  }

  /**
    Apart from preflights, the catch-all decides in a fixed order: the exact
    root gets the descriptor, an `/api/` path is proxied, anything else is 404.
   */
  lemma CatchAllDecisionOrder(r: Request, lib: Collaborators)
    requires !IsPreflight(r) && r.path != "/health"
    ensures r.path == "/" ==> Serve(r, lib).response.body == Descriptor && Serve(r, lib).sent == None
    ensures r.path != "/" && ApiPrefix <= r.path ==>
      Serve(r, lib).response == Proxy(r, lib, CorsHeaders()).response
    ensures r.path != "/" && !(ApiPrefix <= r.path) ==>
      Serve(r, lib).response.status == StatusNotFound && Serve(r, lib).sent == None
  {
  }

  /** A request is forwarded upstream exactly when it is a non-preflight `/api/` request whose URL parses and request builds. */
  lemma ForwardedIffProxyRoute(r: Request, lib: Collaborators)
    ensures Serve(r, lib).sent.Some? <==>
      !IsPreflight(r) && ApiPrefix <= r.path && lib.urlParses && lib.requestBuilds
    ensures Serve(r, lib).sent.Some? ==> Serve(r, lib).sent.value == Outbound(r)
  {
    if ApiPrefix <= r.path {
      assert r.path[1] == 'a';
    }
  }

  /**
    No reply of this server carries a hop-by-hop name: its own headers are
    end-to-end and the upstream's hop-by-hop headers are dropped on relay.
   */
  lemma NoHopByHopInAnyReply(r: Request, lib: Collaborators)
    ensures NoHopByHop(Serve(r, lib).response.header)
  {
    CorsHeadersEndToEnd();
    var w := CorsHeaders();
    if !IsPreflight(r) {
      if RouteOf(r.path) == HealthRoute {
        WritesAddNoHopByHop(w, "", 0, HealthReport(None));
      } else if r.path == "/" {
        WritesAddNoHopByHop(w, "", 0, Descriptor);
      } else if ApiPrefix <= r.path {
        ReplyHasNoHopByHop(r, lib, w);
      } else {
        WritesAddNoHopByHop(w, "404 page not found", StatusNotFound, Empty);
      }
    }
  }

  /** `/health` answers 200 with a JSON status object and never reaches the forwarder. */
  lemma HealthAnswers(r: Request, lib: Collaborators)
    requires !IsPreflight(r) && r.path == "/health"
    ensures Serve(r, lib).response.status == StatusOK
    ensures Serve(r, lib).response.body == HealthReport(None)
    ensures Values(Serve(r, lib).response.header, "Content-Type") == ["application/json"]
    ensures Serve(r, lib).sent == None
  {
  }
}

=== FILE: escaping.dfy ===
/**
  What the URL parser makes of the composed address. The inbound path is
  already decoded when the proxy reads it; the parser cuts the address at the
  first `#` and then at the first `?`, and decodes what is left as the path a
  second time. This module states what that does to the path, and a
  composition that escapes `%`, `?` and `#` first so that the upstream sees
  exactly the inbound path.

  Characters stand for bytes here: an escape `%XY` decodes to the character
  whose code is the hexadecimal number XY.
 */
module Escaping {
  import opened Options
  import opened Http
  import opened Forwarder

  predicate IsHexDigit(c: char) {
    '0' <= c <= '9' || 'a' <= c <= 'f' || 'A' <= c <= 'F'
  }

  function HexValue(c: char): (v: nat)
    requires IsHexDigit(c)
    ensures v < 16
  {
    if '0' <= c <= '9' then c as int - '0' as int
    else if 'a' <= c <= 'f' then c as int - 'a' as int + 10
    else c as int - 'A' as int + 10
  }

  /**
    The parser's decoding of a path: each `%` must be followed by two
    hexadecimal digits and the three characters become one; a `%` without
    them makes the whole address invalid. Every other character stands for
    itself.
   */
  function Unescape(s: string): (r: Option<string>)
    ensures r.Some? ==> |r.value| <= |s|
    ensures r.Some? && '%' in s ==> |r.value| < |s|
    ensures |s| > 0 && s[|s| - 1] == '%' ==> r.None?
    decreases |s|
  {
    if |s| == 0 then Some([])
    else if s[0] == '%' then
      if |s| < 3 || !IsHexDigit(s[1]) || !IsHexDigit(s[2]) then None
      else
        match Unescape(s[3..])
        case None => None
        case Some(t) => Some([(HexValue(s[1]) * 16 + HexValue(s[2])) as char] + t)
    else
      match Unescape(s[1..])
      case None => None
      case Some(t) => Some([s[0]] + t)
  }

  /** A string without `%` decodes to itself. */
  lemma {:induction false} UnescapePercentFree(s: string)
    requires '%' !in s
    ensures Unescape(s) == Some(s)
    decreases |s|
  {
    if |s| > 0 {
      UnescapePercentFree(s[1..]);
      assert [s[0]] + s[1..] == s;
    }
  }

  /**
    Cutting `s` at the first `c`: the text before it, and the text after it
    when `c` occurs at all.
   */
  function CutAt(s: string, c: char): (r: (string, Option<string>))
    ensures c !in r.0
    ensures r.1.None? <==> c !in s
    ensures r.1.None? ==> r.0 == s
    ensures r.1.Some? ==> s == r.0 + [c] + r.1.value
    decreases |s|
  {
    if |s| == 0 then ([], None)
    else if s[0] == c then
      assert s == [] + [c] + s[1..];
      ([], Some(s[1..]))
    else
      var (before, after) := CutAt(s[1..], c);
      assert [s[0]] + s[1..] == s;
      if after.Some? then
        assert s == [s[0]] + before + [c] + after.value;
        ([s[0]] + before, after)
      else
        ([s[0]] + before, after)
  }

  /**
    The path the parser assigns to a target on the upstream origin. The
    fragment after the first `#` and the query after the first `?` are cut
    off, and the rest is decoded. `None` when the parser rejects the address
    (a bad escape in the path or in the fragment), and when the address does
    not continue the origin with `/`, which would make it name another host.
   */
  function ParsedPath(t: TargetUrl): (r: Option<string>)
    ensures UpstreamPath(t).None? ==> r.None?
    ensures r.Some? ==> |r.value| <= |UpstreamPath(t).value|
    ensures r.Some? && ('?' in UpstreamPath(t).value || '#' in UpstreamPath(t).value) ==>
      |r.value| < |UpstreamPath(t).value|
  {
    match UpstreamPath(t)
    case None => None
    case Some(p) =>
      if |p| == 0 || p[0] != '/' then None
      else
        var (beforeFragment, fragment) := CutAt(p, '#');
        var (path, _) := CutAt(beforeFragment, '?');
        if fragment.Some? && Unescape(fragment.value).None? then None
        else Unescape(path)
  }

  /** The characters the corrected composition escapes, and how. */
  function EscapeChar(c: char): string {
    if c == '%' then "%25" else if c == '?' then "%3F" else if c == '#' then "%23" else [c]
  }

  /** Escapes every `%`, `?` and `#`, and leaves every other character alone. */
  function EscapePath(s: string): (r: string)
    ensures |r| >= |s|
    ensures '?' !in r && '#' !in r
    ensures '%' !in s && '?' !in s && '#' !in s ==> r == s
    ensures |s| > 0 && s[0] != '%' && s[0] != '?' && s[0] != '#' ==> |r| > 0 && r[0] == s[0]
    decreases |s|
  {
    if |s| == 0 then []
    else EscapeChar(s[0]) + EscapePath(s[1..])
  }

  /** Decoding undoes the escape of one character, whatever follows it. */
  lemma UnescapeEscapeChar(c: char, rest: string, t: string)
    requires Unescape(rest) == Some(t)
    ensures Unescape(EscapeChar(c) + rest) == Some([c] + t)
  {
    var e := EscapeChar(c) + rest;
    if c == '%' || c == '?' || c == '#' {
      assert e[3..] == rest;
      if c == '%' {
        assert e[1] == '2' && e[2] == '5';
      } else if c == '?' {
        assert e[1] == '3' && e[2] == 'F';
      } else {
        assert e[1] == '2' && e[2] == '3';
      }
    } else {
      assert e[1..] == rest;
    }
  }

  /** Decoding an escaped string gives back the string. */
  lemma {:induction false} UnescapeEscapePath(s: string)
    ensures Unescape(EscapePath(s)) == Some(s)
    decreases |s|
  {
    if |s| > 0 {
      UnescapeEscapePath(s[1..]);
      UnescapeEscapeChar(s[0], EscapePath(s[1..]), s[1..]);
      assert [s[0]] + s[1..] == s;
    }
  }

  /**
    Through the source's composition, a proxied path without `%` reaches the
    upstream unchanged exactly when it holds no `?` and no `#`.
   */
  lemma PercentFreePathSurvives(r: Request)
    requires ApiPrefix <= r.path && '%' !in r.path
    ensures ParsedPath(BuildTarget(r)) == Some(r.path) <==> '?' !in r.path && '#' !in r.path
  {
    assert r.path[0] == '/';
    var (beforeFragment, fragment) := CutAt(r.path, '#');
    var (path, query) := CutAt(beforeFragment, '?');
    if fragment.Some? {
      assert r.path == beforeFragment + ['#'] + fragment.value;
      assert '%' !in fragment.value;
      UnescapePercentFree(fragment.value);
      assert '%' !in beforeFragment;
    }
    if query.Some? {
      assert beforeFragment == path + ['?'] + query.value;
    }
    assert '%' !in path;
    UnescapePercentFree(path);
  }

  /**
    A request for `/api/100%25` on the wire has the decoded path `/api/100%`.
    The second decoding rejects the lone `%`, so the proxy answers 400.
   */
  lemma LonePercentRejected(lib: Collaborators)
    ensures var r := Request("GET", "/api/100%", "", map[]);
      && ParsedPath(BuildTarget(r)) == None
      && (lib.urlParses == ParsedPath(BuildTarget(r)).Some? ==>
            Proxy(r, lib, CorsHeaders()).response.status == StatusBadRequest)
  {
    var r := Request("GET", "/api/100%", "", map[]);
    assert UpstreamPath(BuildTarget(r)) == Some(r.path);
    assert '#' !in r.path && '?' !in r.path;
  }

  /**
    A request for `/api/a%2520b` on the wire has the decoded path `/api/a%20b`.
    The second decoding turns its `%20` into a space, so the upstream never
    receives the inbound path.
   */
  lemma EscapedPathDecodedTwice()
    ensures var r := Request("GET", "/api/a%20b", "", map[]);
      ParsedPath(BuildTarget(r)) != Some(r.path)
  {
    var r := Request("GET", "/api/a%20b", "", map[]);
    assert UpstreamPath(BuildTarget(r)) == Some(r.path);
    assert '#' !in r.path && '?' !in r.path;
    assert r.path[6] == '%';
  }

  /**
    A request for `/api/a%3Fb` on the wire has the decoded path `/api/a?b`.
    The parser takes the `?` for the start of a query and keeps only `/api/a`
    as the path; the stray query `b` is then overwritten by the inbound raw
    query and lost.
   */
  lemma EncodedQueryMarkTruncates()
    ensures var r := Request("GET", "/api/a?b", "", map[]);
      ParsedPath(BuildTarget(r)) != Some(r.path)
  {
    var r := Request("GET", "/api/a?b", "", map[]);
    assert UpstreamPath(BuildTarget(r)) == Some(r.path);
    assert r.path[6] == '?';
  }

  /** The composition with `%`, `?` and `#` escaped before parsing. */
  function EscapedTarget(r: Request): (t: TargetUrl)
    ensures t.rawQuery == r.rawQuery
    ensures '%' !in r.path && '?' !in r.path && '#' !in r.path ==> t == BuildTarget(r)
  {
    TargetUrl(ApiBase + EscapePath(r.path), r.rawQuery)
  }

  /**
    With `%`, `?` and `#` escaped first, the parser gives back the inbound
    path of every proxied request and never rejects it.
   */
  lemma EscapedTargetRoundTrip(r: Request)
    requires ApiPrefix <= r.path
    ensures ParsedPath(EscapedTarget(r)) == Some(r.path)
  {
    var e := EscapePath(r.path);
    assert UpstreamPath(EscapedTarget(r)) == Some(e);
    assert r.path[0] == '/';
    UnescapeEscapePath(r.path);
  }
}

=== FILE: forwarder.dfy ===
/**
  The forwarding pipeline shared by both proxy variants: compose the upstream
  target, build the outbound request with filtered headers, dispatch it, and
  turn the result into exactly one reply to the client.

  Parsing the composed URL, constructing the outbound request and dispatching
  it are library calls; their success or failure, and the upstream's answer,
  arrive as `Collaborators`.
 */
module Forwarder {
  import opened Options
  import opened HopByHop
  import opened Headers
  import opened Http

  /** The fixed upstream origin every proxied request is reissued against. */
  const ApiBase := "https://openapi.blofin.com"

  /** The path prefix that selects the proxy route; it is kept in the upstream path. */
  const ApiPrefix := "/api/"

  /** Ceiling of the client's whole exchange with the upstream, in seconds. */
  const ClientTimeoutSeconds := 30

  /** Deadline the optimised variant derives from the inbound request's context, in seconds. */
  const RequestDeadlineSeconds := 25

  /**
    The upstream target: `address` is the string handed to the URL parser and
    `rawQuery` is the query assigned to the parsed URL afterwards.
   */
  datatype TargetUrl = TargetUrl(address: string, rawQuery: string)

  /**
    The upstream target of an inbound request: the string handed to the URL
    parser is the origin followed by the decoded path, and the raw query is
    copied over.
   */
  function BuildTarget(r: Request): (t: TargetUrl)
    ensures UpstreamPath(t) == Some(r.path)
    ensures t.rawQuery == r.rawQuery
  {
    TargetUrl(ApiBase + r.path, r.rawQuery)
  }

  /** Inverse of composition: the path part of the address handed to the parser, when the address starts with the origin. */
  function UpstreamPath(t: TargetUrl): (p: Option<string>)
    ensures p.Some? <==> ApiBase <= t.address
    ensures p.Some? ==> ApiBase + p.value == t.address
  {
    if ApiBase <= t.address then Some(t.address[|ApiBase|..]) else None
  }

  /** The path part of the address handed to the parser is the inbound path, and the query is copied character for character. */
  lemma TargetRoundTrip(r: Request)
    ensures UpstreamPath(BuildTarget(r)) == Some(r.path)
    ensures BuildTarget(r).rawQuery == r.rawQuery
  {
  }

  /** The `/api/` prefix is not stripped: a proxied path reaches the origin still starting with it. */
  lemma TargetKeepsApiPrefix(r: Request)
    requires ApiPrefix <= r.path
    ensures ApiBase + ApiPrefix <= BuildTarget(r).address
    ensures UpstreamPath(BuildTarget(r)).value[..|ApiPrefix|] == ApiPrefix
  {
  }

  /** Distinct path or query give distinct targets, and equal ones give equal targets. */
  lemma TargetInjective(r1: Request, r2: Request)
    ensures BuildTarget(r1) == BuildTarget(r2) <==> r1.path == r2.path && r1.rawQuery == r2.rawQuery
  {
    if BuildTarget(r1) == BuildTarget(r2) {
      TargetRoundTrip(r1);
      TargetRoundTrip(r2);
    }
  }

  /** The request reissued upstream. Its body is the inbound body stream, not modelled. */
  datatype OutboundRequest = OutboundRequest(verb: string, target: TargetUrl, header: Header)

  datatype UpstreamResponse = UpstreamResponse(status: int, header: Header)

  /** What dispatching the outbound request yields: a network, timeout or protocol error, or an answer. */
  datatype Dispatch = DispatchError | Answered(upstream: UpstreamResponse)

  /** The results of the library calls the pipeline makes, for one request. */
  datatype Collaborators = Collaborators(urlParses: bool, requestBuilds: bool, dispatch: Dispatch)

  /** How a proxied request ends. */
  datatype Outcome = InvalidUrl | ConstructionFailed | DispatchFailed | Relayed(status: int)

  /** The status code the client receives for each outcome. */
  function OutcomeStatus(o: Outcome): int {
    match o
    case InvalidUrl => StatusBadRequest
    case ConstructionFailed => StatusInternalServerError
    case DispatchFailed => StatusBadGateway
    case Relayed(status) => status
  }

  /** A proxied exchange: its outcome, the request sent upstream if one was built, and the reply. */
  datatype Exchange = Exchange(outcome: Outcome, sent: Option<OutboundRequest>, response: Response)

  /** The outbound request: same verb, composed target, and the inbound headers minus hop-by-hop ones. */
  function Outbound(r: Request): (o: OutboundRequest)
    ensures o.verb == r.verb && o.target == BuildTarget(r)
    ensures NoHopByHop(o.header)
    ensures forall n :: !IsHopByHop(n) ==> Values(o.header, n) == Values(r.header, n)
  {
    OutboundRequest(r.verb, BuildTarget(r), CopyEndToEnd(map[], r.header))
  }

  /**
    One run of the proxy handler. `w` holds the headers already on the writer
    (the cross-origin headers); the upstream's headers are appended to them.
   */
  function Proxy(r: Request, lib: Collaborators, w: Header): (x: Exchange)
    ensures x.response.status == OutcomeStatus(x.outcome)
    ensures x.outcome == InvalidUrl <==> !lib.urlParses
    ensures x.outcome == ConstructionFailed <==> lib.urlParses && !lib.requestBuilds
    ensures x.outcome == DispatchFailed <==> lib.urlParses && lib.requestBuilds && lib.dispatch.DispatchError?
    ensures x.outcome.Relayed? <==> lib.urlParses && lib.requestBuilds && lib.dispatch.Answered?
    ensures x.outcome.Relayed? ==> x.outcome.status == lib.dispatch.upstream.status
    ensures x.sent.Some? <==> lib.urlParses && lib.requestBuilds
  {
    if !lib.urlParses then
      Exchange(InvalidUrl, None, Error(w, "Invalid URL", StatusBadRequest))
    else if !lib.requestBuilds then
      Exchange(ConstructionFailed, None, Error(w, "Failed to create proxy request", StatusInternalServerError))
    else
      match lib.dispatch
      case DispatchError =>
        Exchange(DispatchFailed, Some(Outbound(r)), Error(w, "Proxy request failed", StatusBadGateway))
      case Answered(u) =>
        Exchange(Relayed(u.status), Some(Outbound(r)), Response(u.status, CopyEndToEnd(w, u.header), UpstreamBody))
  }

  /**
    Whatever is sent upstream goes to the composed target with the inbound
    verb, carries no hop-by-hop header, and carries every other inbound header
    with its values in the same order and multiplicity.
   */
  lemma OutboundFiltersHeaders(r: Request, lib: Collaborators, w: Header)
    requires Proxy(r, lib, w).sent.Some?
    ensures var o := Proxy(r, lib, w).sent.value;
      && o.verb == r.verb
      && UpstreamPath(o.target) == Some(r.path)
      && o.target.rawQuery == r.rawQuery
      && (forall n :: n in o.header ==> !IsHopByHop(n))
      && (forall n :: !IsHopByHop(n) ==> Values(o.header, n) == Values(r.header, n))
  {
  }

  /**
    A relayed reply carries the upstream status unchanged; under every name the
    writer's values come first and the upstream's end-to-end values follow;
    hop-by-hop names of the upstream add nothing.
   */
  lemma RelayAppendsAfterWriterHeaders(r: Request, lib: Collaborators, w: Header)
    requires lib.urlParses && lib.requestBuilds && lib.dispatch.Answered?
    ensures var resp := Proxy(r, lib, w).response;
      && resp.status == lib.dispatch.upstream.status
      && resp.body == UpstreamBody
      && (forall n :: !IsHopByHop(n) ==> Values(resp.header, n) == Values(w, n) + Values(lib.dispatch.upstream.header, n))
      && (forall n :: IsHopByHop(n) ==> Values(resp.header, n) == Values(w, n))
  {
  }

  /**
    Error replies carry one of three fixed messages and never any detail of the
    failure; apart from the plain-text content headers, the writer's headers,
    the cross-origin ones among them, go out as they were.
   */
  lemma ErrorRepliesAreGeneric(r: Request, lib: Collaborators, w: Header)
    requires !Proxy(r, lib, w).outcome.Relayed?
    ensures Proxy(r, lib, w).response.body in
      {ErrorText("Invalid URL" + "\n"), ErrorText("Failed to create proxy request" + "\n"),
       ErrorText("Proxy request failed" + "\n")}
    ensures forall n :: n !in ErrorHeaderNames ==> Values(Proxy(r, lib, w).response.header, n) == Values(w, n)
    ensures HasCors(w) ==> HasCors(Proxy(r, lib, w).response.header)
  {
  }

  /** Whatever the outcome, the reply keeps the cross-origin headers the writer held. */
  lemma ReplyKeepsCors(r: Request, lib: Collaborators, w: Header)
    requires HasCors(w)
    ensures HasCors(Proxy(r, lib, w).response.header)
  {
    if lib.urlParses && lib.requestBuilds && lib.dispatch.Answered? {
      CopyKeepsCors(w, lib.dispatch.upstream.header);
    } else {
      ErrorRepliesAreGeneric(r, lib, w);
    }
  }

  /**
    When the writer holds no hop-by-hop name, neither does the reply, whatever
    the upstream answered: the upstream's hop-by-hop headers are dropped on the
    way back and an error reply adds only end-to-end names.
   */
  lemma ReplyHasNoHopByHop(r: Request, lib: Collaborators, w: Header)
    requires NoHopByHop(w)
    ensures NoHopByHop(Proxy(r, lib, w).response.header)
  {
    if lib.urlParses && lib.requestBuilds && lib.dispatch.Answered? {
      CopyKeepsNoHopByHop(w, lib.dispatch.upstream.header);
    } else {
      ContentNamesEndToEnd();
    }
  }

  /** Every proxied request ends in exactly one of the four outcomes, each with its own status. */
  lemma ExactlyOneOutcome(r: Request, lib: Collaborators, w: Header)
    ensures var x := Proxy(r, lib, w);
      (x.outcome == InvalidUrl && x.response.status == 400)
      || (x.outcome == ConstructionFailed && x.response.status == 500)
      || (x.outcome == DispatchFailed && x.response.status == 502)
      || (x.outcome.Relayed? && x.response.status == lib.dispatch.upstream.status)
  {
  }
}

=== FILE: headers.dfy ===
/**
  Header multimaps and the hop-by-hop filter that copies one into another.
  A header maps each name to the sequence of its values, in arrival order;
  a name that is absent reads as no values at all.
 */
module Headers {
  import opened HopByHop

  type Header = map<string, seq<string>>

  /** The values stored under `name`, empty when the name is absent. */
  function Values(h: Header, name: string): seq<string> {
    if name in h then h[name] else []
  }

  /** Appends one value under `name`, after any values already there. */
  function Add(h: Header, name: string, value: string): (r: Header)
    ensures Values(r, name) == Values(h, name) + [value]
    ensures forall n :: n != name ==> Values(r, n) == Values(h, n)
    ensures r.Keys == h.Keys + {name}
  {
    h[name := Values(h, name) + [value]]
  }

  /** Replaces whatever `name` held by the single value `value`. */
  function Set(h: Header, name: string, value: string): (r: Header)
    ensures Values(r, name) == [value]
    ensures forall n :: n != name ==> Values(r, n) == Values(h, n)
    ensures r.Keys == h.Keys + {name}
  {
    h[name := [value]]
  }

  /** Removes `name` and all its values. */
  function Del(h: Header, name: string): (r: Header)
    ensures name !in r
    ensures forall n :: n != name ==> Values(r, n) == Values(h, n)
    ensures r.Keys == h.Keys - {name}
  {
    h - {name}
  }

  /** A header that holds no hop-by-hop name, in any spelling. */
  predicate NoHopByHop(h: Header) {
    forall n :: n in h ==> !IsHopByHop(n)
  }

  /** The values of `src` under `name` that cross the proxy: none for a hop-by-hop name, all of them otherwise. */
  function Kept(src: Header, name: string): seq<string> {
    if IsHopByHop(name) then [] else Values(src, name)
  }

  /** The names a copy from `src` creates: end-to-end names that carry at least one value. */
  function CarriedNames(src: Header): set<string> {
    set n | n in src && !IsHopByHop(n) && src[n] != []
  }

  /**
    Reference meaning of the copy: every name of `dst` keeps its values and is
    followed by the kept values of `src` under the same name.
   */
  function CopyEndToEnd(dst: Header, src: Header): Header {
    map n | n in dst.Keys + CarriedNames(src) :: Values(dst, n) + Kept(src, n)
  }

  /** The inner loop of the copy: adds `values` one by one under `name`. */
  method AddValues(h: Header, name: string, values: seq<string>) returns (out: Header)
    ensures Values(out, name) == Values(h, name) + values
    ensures forall n :: n != name ==> Values(out, n) == Values(h, n)
    ensures out.Keys == h.Keys + (if values == [] then {} else {name})
  {
    out := h;
    var i := 0;
    while i < |values|
      invariant 0 <= i <= |values|
      invariant forall n :: n != name ==> Values(out, n) == Values(h, n)
      invariant Values(out, name) == Values(h, name) + values[..i]
      invariant out.Keys == h.Keys + (if i > 0 then {name} else {})
    {
      out := Add(out, name, values[i]);
      assert values[..i + 1] == values[..i] + [values[i]];
      i := i + 1;
    }
    assert values[..i] == values;
  }

  /**
    The copy loop of the proxy: for each name of `src`, in whatever order the
    map yields them, skip it when it is hop-by-hop and otherwise add its
    values one by one onto `dst`.
   */
  method CopyHeaders(dst: Header, src: Header) returns (out: Header)
    ensures forall n :: Values(out, n) == Values(dst, n) + Kept(src, n)
    ensures out.Keys == dst.Keys + CarriedNames(src)
    ensures out == CopyEndToEnd(dst, src)
  {
    out := dst;
    var todo := src.Keys;
    ghost var done: set<string> := {};
    while todo != {}
      invariant todo !! done && todo + done == src.Keys
      invariant forall n :: Values(out, n) == Values(dst, n) + (if n in done then Kept(src, n) else [])
      invariant out.Keys == dst.Keys + (CarriedNames(src) * done)
      decreases todo
    {
      var name :| name in todo;
      todo := todo - {name};
      done := done + {name};
      ghost var prev := out;
      var skip := IsHopByHopHeader(name);
      if !skip {
        out := AddValues(out, name, src[name]);
      }
      CopyStepValues(dst, src, done - {name}, name, prev, out);
      CopyStepKeys(dst, src, done - {name}, name, prev, out);
    }
    IsReferenceCopy(out, dst, src);
  }

  /** One turn of the copy loop extends the copied values by those of the name it visits. */
  lemma CopyStepValues(dst: Header, src: Header, done: set<string>, name: string, prev: Header, next: Header)
    requires name !in done
    requires forall n :: Values(prev, n) == Values(dst, n) + (if n in done then Kept(src, n) else [])
    requires forall n :: n != name ==> Values(next, n) == Values(prev, n)
    requires Values(next, name) == Values(prev, name) + Kept(src, name)
    ensures forall n :: Values(next, n) == Values(dst, n) + (if n in done + {name} then Kept(src, n) else [])
  {
  }

  /** One turn of the copy loop creates the visited name exactly when it carries a kept value. */
  lemma CopyStepKeys(dst: Header, src: Header, done: set<string>, name: string, prev: Header, next: Header)
    requires name in src
    requires prev.Keys == dst.Keys + (CarriedNames(src) * done)
    requires next.Keys == prev.Keys + (if Kept(src, name) == [] then {} else {name})
    ensures next.Keys == dst.Keys + (CarriedNames(src) * (done + {name}))
  {
  }

  /** Headers that agree name by name with the reference copy are the reference copy. */
  lemma IsReferenceCopy(out: Header, dst: Header, src: Header)
    requires forall n :: Values(out, n) == Values(dst, n) + Kept(src, n)
    requires out.Keys == dst.Keys + CarriedNames(src)
    ensures out == CopyEndToEnd(dst, src)
  {
    var ref := CopyEndToEnd(dst, src);
    forall n | n in out ensures out[n] == ref[n] {
      assert Values(out, n) == Values(ref, n);
    }
  }

  /** A hop-by-hop name of `src` adds nothing: the destination keeps exactly what it had under it. */
  lemma CopySkipsHopByHop(dst: Header, src: Header, name: string)
    requires IsHopByHop(name)
    ensures Values(CopyEndToEnd(dst, src), name) == Values(dst, name)
    ensures name in CopyEndToEnd(dst, src) <==> name in dst
  {
  }

  /**
    Every other name keeps the values the destination already had, followed by
    all values of `src`, in their order and with their multiplicity.
   */
  lemma CopyAppendsEndToEnd(dst: Header, src: Header, name: string)
    requires !IsHopByHop(name)
    ensures Values(CopyEndToEnd(dst, src), name) == Values(dst, name) + Values(src, name)
    ensures multiset(Values(CopyEndToEnd(dst, src), name)) == multiset(Values(dst, name)) + multiset(Values(src, name))
  {
  }

  /** A copy into an empty header carries no hop-by-hop name at all, in any spelling. */
  lemma FilteredHasNoHopByHop(src: Header)
    ensures forall n :: n in CopyEndToEnd(map[], src) ==> !IsHopByHop(n)
  {
  }

  /** Copying onto a header free of hop-by-hop names keeps it free of them, whatever the source holds. */
  lemma CopyKeepsNoHopByHop(dst: Header, src: Header)
    requires NoHopByHop(dst)
    ensures NoHopByHop(CopyEndToEnd(dst, src))
  {
  }

  /** Filtering a filtered header changes nothing. */
  lemma FilterIdempotent(src: Header)
    ensures CopyEndToEnd(map[], CopyEndToEnd(map[], src)) == CopyEndToEnd(map[], src)
  {
    var once := CopyEndToEnd(map[], src);
    var twice := CopyEndToEnd(map[], once);
    assert twice.Keys == once.Keys;
    forall n | n in once ensures twice[n] == once[n] {
      assert !IsHopByHop(n);
    }
  }

  /** A header holding no hop-by-hop name and no empty value list passes the filter unchanged. */
  lemma FilterKeepsCleanHeader(src: Header)
    requires forall n :: n in src ==> !IsHopByHop(n) && src[n] != []
    ensures CopyEndToEnd(map[], src) == src
  {
    var r := CopyEndToEnd(map[], src);
    assert r.Keys == src.Keys;
    forall n | n in src ensures r[n] == src[n] {
      assert !IsHopByHop(n);
    }
  }
}

=== FILE: hop_by_hop.dfy ===
/**
  The hop-by-hop header denylist: names that describe one connection and are
  never carried across the proxy, matched without regard to case.
 */
module HopByHop {
  import opened Ascii

  /** The names the proxy refuses to forward, spelled as `isHopByHopHeader` lists them. */
  const HopByHopHeaders: seq<string> := [
    "Connection",
    "Keep-Alive",
    "Proxy-Authenticate",
    "Proxy-Authorization",
    "Te",
    "Trailers",
    "Transfer-Encoding",
    "Upgrade"
  ]

  /** The same eight names in lower case: the set a lowered name is looked up in. */
  const Denylist: set<string> := {
    "connection",
    "keep-alive",
    "proxy-authenticate",
    "proxy-authorization",
    "te",
    "trailers",
    "transfer-encoding",
    "upgrade"
  }

  predicate IsHopByHop(name: string) {
    ToLower(name) in Denylist
  }

  /** The denylist holds exactly the lowered forms of the listed names. */
  lemma DenylistIsListLowered()
    ensures forall x :: x in Denylist <==>
      exists j :: 0 <= j < |HopByHopHeaders| && ToLower(HopByHopHeaders[j]) == x
  {
    var lowered := ["connection", "keep-alive", "proxy-authenticate", "proxy-authorization",
                    "te", "trailers", "transfer-encoding", "upgrade"];
    LowersTo("Connection", lowered[0]);
    LowersTo("Keep-Alive", lowered[1]);
    LowersTo("Proxy-Authenticate", lowered[2]);
    LowersTo("Proxy-Authorization", lowered[3]);
    LowersTo("Te", lowered[4]);
    LowersTo("Trailers", lowered[5]);
    LowersTo("Transfer-Encoding", lowered[6]);
    LowersTo("Upgrade", lowered[7]);
    assert forall j :: 0 <= j < |HopByHopHeaders| ==> ToLower(HopByHopHeaders[j]) == lowered[j];
    assert Denylist == set j | 0 <= j < |lowered| :: lowered[j];
  }

  /**
    The lookup as the proxy performs it: lower the name once, then compare it
    with the lowered form of each listed name in turn.
   */
  method IsHopByHopHeader(header: string) returns (b: bool)
    ensures b <==> IsHopByHop(header)
  {
    DenylistIsListLowered();
    var lowered := ToLower(header);
    var i := 0;
    while i < |HopByHopHeaders|
      invariant 0 <= i <= |HopByHopHeaders|
      invariant forall j :: 0 <= j < i ==> ToLower(HopByHopHeaders[j]) != lowered
    {
      if ToLower(HopByHopHeaders[i]) == lowered {
        return true;
      }
      i := i + 1;
    }
    return false;
  }

  /** A name is hop-by-hop exactly when it equals one of the eight listed names up to case. */
  lemma HopByHopIffListed(name: string)
    ensures IsHopByHop(name) <==>
      exists j :: 0 <= j < |HopByHopHeaders| && ToLower(HopByHopHeaders[j]) == ToLower(name)
  {
    DenylistIsListLowered();
  }

  /** Changing the case of a name never changes whether it is hop-by-hop. */
  lemma HopByHopIgnoresCase(name: string)
    ensures IsHopByHop(ToLower(name)) <==> IsHopByHop(name)
  {
    ToLowerIdempotent(name);
  }

  /** No listed name is longer than `Proxy-Authorization`, so any longer name is end-to-end. */
  lemma LongNamesAreEndToEnd(name: string)
    requires |name| > |"Proxy-Authorization"|
    ensures !IsHopByHop(name)
  {
    assert forall x :: x in Denylist ==> |x| <= 19;
  }

  /** Every spelling of TE is caught, whatever case the client used. */
  lemma TeInAnyCase()
    ensures IsHopByHop("TE") && IsHopByHop("te") && IsHopByHop("Te") && IsHopByHop("tE")
  {
    LowersTo("TE", "te");
    LowersTo("tE", "te");
    LowersTo("Te", "te");
    LowersTo("te", "te");
  }

  /**
    Authentication headers and standard end-to-end headers pass. So does the
    singular `Trailer` and the non-standard `Proxy-Connection`, which the
    list does not name.
   */
  lemma EndToEndNamesPass()
    ensures !IsHopByHop("ACCESS-KEY") && !IsHopByHop("ACCESS-SIGN")
    ensures !IsHopByHop("Content-Type") && !IsHopByHop("Authorization")
    ensures !IsHopByHop("Trailer") && !IsHopByHop("Proxy-Connection")
  {
    LowersTo("ACCESS-KEY", "access-key");
    LowersTo("ACCESS-SIGN", "access-sign");
    LowersTo("Content-Type", "content-type");
    LowersTo("Authorization", "authorization");
    LowersTo("Trailer", "trailer");
    LowersTo("Proxy-Connection", "proxy-connection");
  }
}

=== FILE: http.dfy ===
/** A value that may be missing. */
module Options {
  datatype Option<+T> = None | Some(value: T)
}

/**
  The HTTP surface the proxy sees: inbound requests, the responses it writes,
  the cross-origin headers it puts on them and the status codes it uses.
 */
module Http {
  import opened Options
  import opened Ascii
  import opened HopByHop
  import opened Headers

  const StatusOK := 200
  const StatusBadRequest := 400
  const StatusNotFound := 404
  const StatusInternalServerError := 500
  const StatusBadGateway := 502

  /** An inbound request: method, decoded path, raw query string and headers. The body stream is not modelled. */
  datatype Request = Request(verb: string, path: string, rawQuery: string, header: Header)

  /**
    What a response body consists of. Timestamps, goroutine counts and memory
    figures are left out; the counters the model tracks are kept.
   */
  datatype Body =
    | Empty
    | ErrorText(message: string)
    | UpstreamBody
    | Descriptor
    | HealthReport(requestsServed: Option<nat>)
    | MetricsReport(requestsTotal: nat)

  datatype Response = Response(status: int, header: Header, body: Body)

  const AllowOriginName := "Access-Control-Allow-Origin"
  const AllowMethodsName := "Access-Control-Allow-Methods"
  const AllowHeadersName := "Access-Control-Allow-Headers"
  const MaxAgeName := "Access-Control-Max-Age"

  const AllowOrigin := "*"
  const AllowMethods := "GET, POST, PUT, PATCH, DELETE, OPTIONS"
  const AllowHeaders := "Content-Type, Authorization, ACCESS-KEY, ACCESS-SIGN, ACCESS-TIMESTAMP, ACCESS-NONCE, ACCESS-PASSPHRASE, BROKER-ID"
  const MaxAge := "86400"

  /** The four cross-origin headers lead their names' values with the fixed policy values. */
  predicate HasCors(h: Header) {
    && Values(h, AllowOriginName) != [] && Values(h, AllowOriginName)[0] == AllowOrigin
    && Values(h, AllowMethodsName) != [] && Values(h, AllowMethodsName)[0] == AllowMethods
    && Values(h, AllowHeadersName) != [] && Values(h, AllowHeadersName)[0] == AllowHeaders
    && Values(h, MaxAgeName) != [] && Values(h, MaxAgeName)[0] == MaxAge
  }

  /** The writer's headers once the cross-origin wrapper has set its four headers on a fresh response. */
  function CorsHeaders(): (h: Header)
    ensures HasCors(h)
    ensures h.Keys == {AllowOriginName, AllowMethodsName, AllowHeadersName, MaxAgeName}
    ensures forall n :: n in h ==> |h[n]| == 1
  {
    var h := Set(map[], AllowOriginName, AllowOrigin);
    var h := Set(h, AllowMethodsName, AllowMethods);
    var h := Set(h, AllowHeadersName, AllowHeaders);
    Set(h, MaxAgeName, MaxAge)
  }

  /** A preflight is a request whose verb (method) is exactly `OPTIONS`, compared case-sensitively. */
  predicate IsPreflight(r: Request) {
    r.verb == "OPTIONS"
  }

  /** Only the upper-case spelling is a preflight: `options` and `Options` are ordinary requests. */
  lemma PreflightIsCaseSensitive(r: Request)
    ensures r.verb == "OPTIONS" ==> IsPreflight(r)
    ensures r.verb == "options" || r.verb == "Options" ==> !IsPreflight(r)
  {
  }

  /** The answer to a preflight: status 200, the cross-origin headers and no body. */
  function Preflight(): (resp: Response)
    ensures resp.status == StatusOK && resp.body == Empty && HasCors(resp.header)
  {
    Response(StatusOK, CorsHeaders(), Empty)
  }

  const ContentTypeName := "Content-Type"
  const ContentLengthName := "Content-Length"
  const NoSniffName := "X-Content-Type-Options"

  /** The only names an error reply touches; every other name of the writer is left alone. */
  const ErrorHeaderNames: set<string> := {ContentLengthName, ContentTypeName, NoSniffName}

  /**
    A plain-text error reply: any content length is dropped, the content type
    becomes plain text with content sniffing disabled, and the body is the
    message followed by a line break.
   */
  function Error(h: Header, message: string, code: int): (resp: Response)
    ensures resp.status == code && resp.body == ErrorText(message + "\n")
    ensures ContentLengthName !in resp.header
    ensures Values(resp.header, ContentTypeName) == ["text/plain; charset=utf-8"]
    ensures Values(resp.header, NoSniffName) == ["nosniff"]
    ensures forall n :: n !in ErrorHeaderNames ==> Values(resp.header, n) == Values(h, n)
  {
    var h := Del(h, ContentLengthName);
    var h := Set(h, ContentTypeName, "text/plain; charset=utf-8");
    Response(code, Set(h, NoSniffName, "nosniff"), ErrorText(message + "\n"))
  }

  /** The standard reply for an unknown path. */
  function NotFound(h: Header): (resp: Response)
    ensures resp.status == StatusNotFound && resp.body == ErrorText("404 page not found\n")
    ensures forall n :: n !in ErrorHeaderNames ==> Values(resp.header, n) == Values(h, n)
  {
    Error(h, "404 page not found", StatusNotFound)
  }

  /** None of the cross-origin names is one an error reply touches, so an error keeps them. */
  lemma ErrorKeepsCors(h: Header, message: string, code: int)
    requires HasCors(h)
    ensures HasCors(Error(h, message, code).header)
  {
  }

  /** A JSON reply: the content type is set and the implicit status is 200. */
  function Json(h: Header, body: Body): (resp: Response)
    ensures resp.status == StatusOK && resp.body == body
    ensures Values(resp.header, ContentTypeName) == ["application/json"]
    ensures forall n :: n != ContentTypeName ==> Values(resp.header, n) == Values(h, n)
  {
    Response(StatusOK, Set(h, ContentTypeName, "application/json"), body)
  }

  /** Setting the content type never disturbs the cross-origin headers. */
  lemma JsonKeepsCors(h: Header, body: Body)
    requires HasCors(h)
    ensures HasCors(Json(h, body).header)
  {
  }

  /** Appending a copy of any header onto the writer keeps the cross-origin values in front. */
  lemma CopyKeepsCors(h: Header, src: Header)
    requires HasCors(h)
    ensures HasCors(CopyEndToEnd(h, src))
  {
  }

  /** The four cross-origin names are end-to-end names. */
  lemma CorsNamesEndToEnd()
    ensures !IsHopByHop(AllowOriginName) && !IsHopByHop(AllowMethodsName)
    ensures !IsHopByHop(AllowHeadersName) && !IsHopByHop(MaxAgeName)
  {
    LongNamesAreEndToEnd(AllowOriginName);
    LongNamesAreEndToEnd(AllowMethodsName);
    LongNamesAreEndToEnd(AllowHeadersName);
    LongNamesAreEndToEnd(MaxAgeName);
  }

  /** The content headers the server writes are end-to-end names. */
  lemma ContentNamesEndToEnd()
    ensures !IsHopByHop(ContentTypeName) && !IsHopByHop(NoSniffName)
  {
    LowersTo(ContentTypeName, "content-type");
    LongNamesAreEndToEnd(NoSniffName);
  }

  /** The cross-origin headers hold no hop-by-hop name. */
  lemma CorsHeadersEndToEnd()
    ensures NoHopByHop(CorsHeaders())
  {
    CorsNamesEndToEnd();
  }

  /** Neither an error reply nor a JSON reply adds a hop-by-hop name to the writer's headers. */
  lemma WritesAddNoHopByHop(h: Header, message: string, code: int, body: Body)
    requires NoHopByHop(h)
    ensures NoHopByHop(Error(h, message, code).header)
    ensures NoHopByHop(Json(h, body).header)
  {
    ContentNamesEndToEnd();
  }
}

=== FILE: optimized.dfy ===
/**
  The optimised proxy server: `/health`, `/metrics` and the `/api/` subtree,
  each behind the cross-origin wrapper, plus a request counter that the proxy
  handler increments before it does anything else. Requests are served one
  after another; the counter is the state carried from one to the next.
 */
module Optimized {
  import opened Options
  import opened Headers
  import opened Http
  import opened Forwarder

  /** The state shared by all requests: how many times the proxy handler has run. */
  datatype ProxyState = ProxyState(requestCount: nat)

  /** The three registered patterns, and every other path, which the router answers itself. */
  datatype Route = HealthRoute | MetricsRoute | ApiRoute | Unregistered

  /** The three patterns never overlap, so the order in which they are tried does not matter. */
  function RouteOf(path: string): (route: Route)
    ensures route == HealthRoute <==> path == "/health"
    ensures route == MetricsRoute <==> path == "/metrics"
    ensures route == ApiRoute <==> ApiPrefix <= path
  {
    if path == "/health" then
      assert path[1] != ApiPrefix[1];
      HealthRoute
    else if path == "/metrics" then
      assert path[1] != ApiPrefix[1];
      MetricsRoute
    else if ApiPrefix <= path then ApiRoute
    else Unregistered
  }

  /** A request reaches the proxy handler when it is routed to the `/api/` subtree and is not a preflight. */
  predicate ReachesProxy(r: Request) {
    RouteOf(r.path) == ApiRoute && !IsPreflight(r)
  }

  /** The state after one request: the counter moves exactly when the request reaches the proxy handler. */
  function Next(s: ProxyState, r: Request): (next: ProxyState)
    ensures s.requestCount <= next.requestCount <= s.requestCount + 1
    ensures next.requestCount == s.requestCount + 1 <==> ReachesProxy(r)
  {
    if ReachesProxy(r) then ProxyState(s.requestCount + 1) else s
  }

  /** A served request: the state afterwards, the reply, and the request sent upstream if one was. */
  datatype Step = Step(state: ProxyState, response: Response, sent: Option<OutboundRequest>)

  /** The proxy handler: count the call first, then forward, whatever the outcome will be. */
  function ProxyHandler(s: ProxyState, r: Request, lib: Collaborators, w: Header): (st: Step)
    ensures st.state.requestCount == s.requestCount + 1
  {
    var x := Proxy(r, lib, w);
    Step(ProxyState(s.requestCount + 1), x.response, x.sent)
  }

  /** One request through the server. */
  function Serve(s: ProxyState, r: Request, lib: Collaborators): (st: Step)
    ensures st.state.requestCount == s.requestCount + (if ReachesProxy(r) then 1 else 0)
    ensures st.state == Next(s, r)
    ensures st.sent.Some? ==> ReachesProxy(r)
  {
    var w := CorsHeaders();
    var route := RouteOf(r.path);
    if route == Unregistered then
      Step(s, NotFound(map[]), None)
    else if IsPreflight(r) then
      Step(s, Preflight(), None)
    else
      match route
      case HealthRoute => Step(s, Json(w, HealthReport(Some(s.requestCount))), None)
      case MetricsRoute => Step(s, Json(w, MetricsReport(s.requestCount)), None)
      case ApiRoute => ProxyHandler(s, r, lib, w)
  }

  /** A request submitted to the server together with the library results it meets. */
  datatype Call = Call(request: Request, lib: Collaborators)

  /** How many calls of a sequence reach the proxy handler. */
  function ProxiedCount(calls: seq<Call>): nat {
    |set i | 0 <= i < |calls| && ReachesProxy(calls[i].request)|
  }

  /**
    The state after serving `calls` in order, starting from `s`. Each step is
    `Next`, which is the state `Serve` leaves behind.
   */
  function Run(s: ProxyState, calls: seq<Call>): (end: ProxyState)
    ensures end.requestCount >= s.requestCount
    decreases |calls|
  {
    if |calls| == 0 then s
    else Next(Run(s, calls[..|calls| - 1]), calls[|calls| - 1].request)
  }

  /** Running one more call is serving it in the state the earlier calls left. */
  lemma RunServesInOrder(s: ProxyState, calls: seq<Call>, c: Call)
    ensures Run(s, calls + [c]) == Serve(Run(s, calls), c.request, c.lib).state
  {
    assert (calls + [c])[..|calls|] == calls;
  }

  /** The replies to `calls`, each computed in the state left by the calls before it. */
  function Replies(s: ProxyState, calls: seq<Call>): (rs: seq<Response>)
    ensures |rs| == |calls|
  {
    seq(|calls|, k requires 0 <= k < |calls| => Serve(Run(s, calls[..k]), calls[k].request, calls[k].lib).response)
  }

  /** Counting the proxied calls of a sequence extended by one more call. */
  lemma ProxiedCountSnoc(calls: seq<Call>, c: Call)
    ensures ProxiedCount(calls + [c]) == ProxiedCount(calls) + (if ReachesProxy(c.request) then 1 else 0)
  {
    var ext := calls + [c];
    var before := set i | 0 <= i < |calls| && ReachesProxy(calls[i].request);
    var after := set i | 0 <= i < |ext| && ReachesProxy(ext[i].request);
    if ReachesProxy(c.request) {
      assert after == before + {|calls|};
    } else {
      assert after == before;
    }
  }

  /** The counter grows by exactly the number of calls that reached the proxy, failed ones included. */
  lemma {:induction false} CounterCountsProxiedCalls(s: ProxyState, calls: seq<Call>)
    ensures Run(s, calls).requestCount == s.requestCount + ProxiedCount(calls)
    decreases |calls|
  {
    if |calls| > 0 {
      var init := calls[..|calls| - 1];
      var last := calls[|calls| - 1];
      CounterCountsProxiedCalls(s, init);
      assert calls == init + [last];
      ProxiedCountSnoc(init, last);
    }
  }

  /** Serving more calls never lowers the counter. */
  lemma {:induction false} CounterNeverDecreases(s: ProxyState, calls: seq<Call>, i: nat, j: nat)
    requires i <= j <= |calls|
    ensures Run(s, calls[..i]).requestCount <= Run(s, calls[..j]).requestCount
    decreases j - i
  {
    if i < j {
      CounterNeverDecreases(s, calls, i, j - 1);
      assert calls[..j][..j - 1] == calls[..j - 1];
    }
  }

  /** `/health` reports the current count and leaves it as it is. */
  lemma HealthReportsCount(s: ProxyState, r: Request, lib: Collaborators)
    requires r.path == "/health" && !IsPreflight(r)
    ensures Serve(s, r, lib).response.status == StatusOK
    ensures Serve(s, r, lib).response.body == HealthReport(Some(s.requestCount))
    ensures Serve(s, r, lib).state == s
  {
  }

  /** `/metrics` reports the current count too and leaves it as it is. */
  lemma MetricsReportsCount(s: ProxyState, r: Request, lib: Collaborators)
    requires r.path == "/metrics" && !IsPreflight(r)
    ensures Serve(s, r, lib).response.status == StatusOK
    ensures Serve(s, r, lib).response.body == MetricsReport(s.requestCount)
    ensures Serve(s, r, lib).state == s
  {
  }

  /** A call that the server answers with its health report. */
  predicate IsHealthCall(c: Call) {
    c.request.path == "/health" && !IsPreflight(c.request)
  }

  /** Across a sequence of calls, a later `/health` reply never reports a smaller count than an earlier one. */
  lemma HealthCountsNeverDecrease(s: ProxyState, calls: seq<Call>, i: nat, j: nat)
    requires i <= j < |calls|
    requires IsHealthCall(calls[i]) && IsHealthCall(calls[j])
    ensures Replies(s, calls)[i].body.HealthReport? && Replies(s, calls)[i].body.requestsServed.Some?
    ensures Replies(s, calls)[j].body.HealthReport? && Replies(s, calls)[j].body.requestsServed.Some?
    ensures Replies(s, calls)[i].body.requestsServed.value <= Replies(s, calls)[j].body.requestsServed.value
  {
    CounterNeverDecreases(s, calls, i, j);
  }

  /** A call that reaches the proxy is counted whatever its outcome, including 400, 500 and 502. */
  lemma FailedCallsAreCounted(s: ProxyState, r: Request, lib: Collaborators)
    requires ReachesProxy(r)
    ensures Serve(s, r, lib).state.requestCount == s.requestCount + 1
    ensures !lib.urlParses ==> Serve(s, r, lib).response.status == StatusBadRequest
    ensures lib.urlParses && !lib.requestBuilds ==> Serve(s, r, lib).response.status == StatusInternalServerError
    ensures lib.urlParses && lib.requestBuilds && lib.dispatch.DispatchError? ==>
      Serve(s, r, lib).response.status == StatusBadGateway
  {
  }

  /** A preflight on a registered route is answered 200 without running the handler, so nothing is counted or sent. */
  lemma PreflightNotCounted(s: ProxyState, r: Request, lib: Collaborators)
    requires IsPreflight(r) && RouteOf(r.path) != Unregistered
    ensures Serve(s, r, lib) == Step(s, Preflight(), None)
    ensures HasCors(Serve(s, r, lib).response.header)
  {
  }

  /** The reply carries none of the four cross-origin names. */
  predicate LacksCors(h: Header) {
    && AllowOriginName !in h && AllowMethodsName !in h
    && AllowHeadersName !in h && MaxAgeName !in h
  }

  /**
    Every reply on a registered route carries the cross-origin headers; the
    router's own 404 carries none of them and is not counted.
   */
  lemma CorsOnRegisteredRoutes(s: ProxyState, r: Request, lib: Collaborators)
    ensures RouteOf(r.path) != Unregistered ==> HasCors(Serve(s, r, lib).response.header)
    ensures RouteOf(r.path) == Unregistered ==>
      && Serve(s, r, lib).response.status == StatusNotFound
      && LacksCors(Serve(s, r, lib).response.header)
      && Serve(s, r, lib).state == s
  {
  }

  /**
    No reply of this server carries a hop-by-hop name: its own headers are
    end-to-end and the upstream's hop-by-hop headers are dropped on relay.
   */
  lemma NoHopByHopInAnyReply(s: ProxyState, r: Request, lib: Collaborators)
    ensures NoHopByHop(Serve(s, r, lib).response.header)
  {
    CorsHeadersEndToEnd();
    var w := CorsHeaders();
    WritesAddNoHopByHop(map[], "404 page not found", StatusNotFound, HealthReport(Some(s.requestCount)));
    WritesAddNoHopByHop(w, "", 0, HealthReport(Some(s.requestCount)));
    WritesAddNoHopByHop(w, "", 0, MetricsReport(s.requestCount));
    ReplyHasNoHopByHop(r, lib, w);
  }

  /** Only `/health`, `/metrics` and paths under `/api/` are registered. */
  lemma RegisteredRoutes(path: string)
    ensures RouteOf(path) != Unregistered <==> path == "/health" || path == "/metrics" || ApiPrefix <= path
  {
  }
}

=== FILE: variants.dfy ===
/**
  The two servers side by side: they forward identically, and differ only in
  routing, in which replies carry the cross-origin headers, and in counting.
 */
module Variants {
  import opened Options
  import opened Http
  import opened Forwarder
  import Basic
  import Optimized

  /** A request both servers forward gets the same reply and sends the same outbound request; only one counts it. */
  lemma ProxiedRequestsAgree(s: Optimized.ProxyState, r: Request, lib: Collaborators)
    requires Optimized.ReachesProxy(r)
    ensures Optimized.Serve(s, r, lib).response == Basic.Serve(r, lib).response
    ensures Optimized.Serve(s, r, lib).sent == Basic.Serve(r, lib).sent
    ensures Optimized.Serve(s, r, lib).state.requestCount == s.requestCount + 1
  {
    assert r.path[1] == 'a';
  }

  /** A preflight to a path neither server registers is 200 on the plain server and 404 on the optimised one. */
  lemma PreflightOffRouteDiffers(s: Optimized.ProxyState, lib: Collaborators)
    ensures var r := Request("OPTIONS", "/docs", "", map[]);
      && Basic.Serve(r, lib).response.status == StatusOK
      && Optimized.Serve(s, r, lib).response.status == StatusNotFound
  {
    var r := Request("OPTIONS", "/docs", "", map[]);
    assert !(ApiPrefix <= r.path) by {
      assert r.path[1] != ApiPrefix[1];
    }
  }

  /** The root path is the descriptor on the plain server and unregistered on the optimised one. */
  lemma RootPathDiffers(s: Optimized.ProxyState, lib: Collaborators)
    ensures var r := Request("GET", "/", "", map[]);
      && Basic.Serve(r, lib).response.body == Descriptor
      && Optimized.Serve(s, r, lib).response.status == StatusNotFound
  {
  }
}
